=== FILE: README.md ===
# Slip-payment reconciliation of the ULTRA Stock server

This project models the decision logic of the ULTRA Stock HTTP server. Most of the server's
other routes forward their requests to an external script service; the remaining I/O (token
signing, chat-bot calls, static pages) is listed under "## Left out".

The server has two payment handlers:

- `/api/reseller/submit-payment` settles a reseller's outstanding debt.
- `/api/customer/pay-order` pays one pending customer order.

Each handler takes an image of a bank-transfer slip and runs a fixed chain of guards, returning
at the first one that fails. The first two guards run before the slip is sent to the
slip-verification service; the verifier's answer is the third, and the rest check the read slip:

1. no image;
2. no debt (or no matching pending order);
3. verifier failure;
4. duplicate slip reference;
5. receiving-account mismatch;
6. slip older than 24 hours (reseller handler only);
7. amount not exactly equal to what is owed.

Only when every guard passes does the handler settle. The reseller handler then marks the debt
paid and writes a payment log. The customer handler asks the script service to complete the
order, and writes a payment log only when that completion succeeds.

Each handler is modelled as a pure function, `Reconcile.SubmitPayment` and `Reconcile.PayOrder`.
Its input is the request together with the answers its collaborators give:

- the unpaid-amount lookup or the pending-order list;
- the verifier's result;
- the duplicate-slip answer;
- the configured bank account;
- the clock reading;
- the order-completion result.

Its output is the outcome together with the list of collaborator calls the handler makes, in
order. That list is what lets the lemmas say which calls do and do not happen. The guards that
follow verification are defined once, in `Reconcile.SlipCheck`, because both handlers share them.
`Reconcile.FailedChecks` is an independent reference for them: it evaluates every check
separately, with no short-circuiting.

Other modules:

- `Account` models hyphen stripping and the two-way substring match of account numbers.
- `Slip` models the fields read from the verified slip and the 24-hour freshness rule.
- `Access` models the role gate, the stock-sale permission and the self-or-owner rule of the
  commission views.
- `ReconcileProperties` states what the handlers guarantee.

Units and conventions:

- Amounts are integers in minor currency units.
- Times are integers in milliseconds.
- A slip timestamp is absent, unparsable, or an instant. JavaScript turns an unparsable date
  into `NaN` hours, and `NaN > 24` is false, so an unparsable date passes the age check.

Account normalisation removes only `-`, as `replace(/-/g, '')` does: spaces, dots and every
other character are kept (`Account.StripHyphensKeepsHyphenFree`).

## Model

| member | source | states |
|---|---|---|
| `Account.StripHyphens` | server.js:603-605 | the normalised number contains no `-` and is no longer than the input |
| `Account.StripHyphensKeepsOthers` | server.js:603-605 | every character other than `-` occurs in the normalised number exactly as often as in the input |
| `Account.StripHyphensConcat` | server.js:605 | normalisation distributes over concatenation, so the kept characters stay in their original order |
| `Account.StripHyphensKeepsHyphenFree` | server.js:603 | a number without hyphens is unchanged, including any spaces or dots it contains |
| `Account.StripHyphensIdempotent` | server.js:603-605 | normalising twice gives the same result as normalising once |
| `Account.StripHyphensAroundHyphen` | server.js:605 | a hyphen between two parts disappears, and each part is normalised on its own |
| `Account.StripHyphensJoinsGroups` | server.js:603-605 | digit groups joined by `-` normalise to the groups run together |
| `Account.Includes` | server.js:606 | `includes` of the empty string is true; containment needs a needle no longer than the haystack |
| `Account.IncludesIffOccurs` | server.js:606 | `Includes` holds exactly when the needle occurs at some index of the haystack |
| `Account.IncludesSameLength` | server.js:606 | between strings of equal length, containment is equality |
| `Account.AccountsMatch` | server.js:606 | equal numbers match, and an empty number on either side matches everything |
| `Account.AccountCheckSymmetric` | server.js:603-609 | the whole account check keeps its verdict when the configured and the receiver number are swapped |
| `Account.OurAccount` | server.js:603 | a configured number becomes exactly its hyphen-stripped form, which has no hyphen; an absent number gives `''` |
| `Account.AccountCheckPasses` | server.js:603-609 | the check passes when our number normalises to `''`, or the receiver value is absent or empty; otherwise it passes iff one normalised number occurs in the other |
| `Account.AccountCheckIgnoresHyphens` | server.js:603-606 | for every configured and receiver number, including empty and all-hyphen receiver values, stripping the hyphens on both sides never changes the verdict |
| `Account.EmptyNormalReceiverPasses` | server.js:604-606 | a receiver value that normalises to `''` passes against any configured account |
| `Account.HyphenatedAccountMatches` | server.js:603-606 | a receiver number printed without the configured number's hyphens passes |
| `Account.TruncatedAccountMatches` | server.js:606 | any contiguous part of a hyphen-free number matches the full number, whichever side it is on |
| `Account.DifferentAccountMismatches` | server.js:606-607 | two different non-empty hyphen-free numbers of the same length fail the check |
| `Access.RequireRole` | server.js:77-84 | the gate passes iff the caller's role is one of the listed roles |
| `Access.RequireRoleMonotone` | server.js:79 | a gate over a larger role list admits everyone a smaller list admits |
| `Access.CanBuyStock` | server.js:270-271 | owner and super_admin may buy stock; any other caller whose token has no permission record may not |
| `Access.SaleAllowed` | server.js:268-275 | a sale that is not `'stock'` is never gated; a `'stock'` sale needs owner or super_admin, or else the `canBuyWithoutCommission` permission |
| `Access.RegistrationTokenCannotBuyStock` | server.js:269-275 | a caller whose token carries no permissions, and who is neither owner nor super_admin, is refused a stock sale but allowed a direct one |
| `Access.CanViewCommission` | server.js:868-871 | the owner may view anyone's commission; anyone else only their own (the same guard stands at server.js:922-925 for payment history) |
| `Slip.SlipRef` | server.js:590 | the reference is empty iff `transRef` is absent or empty; a non-empty reference is `transRef` itself |
| `Slip.SlipAmount` | server.js:591 | a present amount is returned unchanged; an absent amount reads as 0 |
| `Slip.IsExpired` | server.js:612-615 | only a parsed timestamp strictly before `now` can expire; a slip at most 24 h old never does |
| `Slip.ExpiredIffOverOneDay` | server.js:611-618 | the handler's test, age in fractional hours greater than 24, holds iff the slip has a parsed timestamp more than 86,400,000 ms before now; an absent or unparsable timestamp never expires |
| `Slip.ExpiryBoundary` | server.js:614-615 | a slip exactly 24 h old, or dated in the future, is fresh; one millisecond more expires it |
| `Slip.ExpiryIsMonotone` | server.js:614-615 | a slip that has expired stays expired at every later time |
| `Reconcile.SlipCheck` | server.js:593-626 | the ordered guards find no failure iff no check fails when each is run alone; otherwise they report the first failing check |
| `Reconcile.CheckCalls` | server.js:593-602 | after verification the duplicate service is called iff the reference is non-empty; the bank account is read iff the duplicate guard passed; none of these calls writes (the same calls stand at server.js:701-710) |
| `Reconcile.SubmitPayment` | server.js:568-652 | no image means rejection with no calls; the handler never forwards; it pays iff its last call is the payment log; an unpaid outcome makes no settle or log call (the rejection reasons are stated in `ResellerRejectsWithFirstFailure` and the lemmas beside it) |
| `Reconcile.FindOrder` | server.js:685 | no order is found iff no order has the id; a found order is the first one with that id |
| `Reconcile.PendingOrder` | server.js:685 | no list gives no order; from a list, the result is the first order with the requested id (`FindOrder`), and none when no order has that id |
| `Reconcile.PayOrder` | server.js:676-744 | no image means rejection with no calls; the handler never reports `Paid`; a forwarded outcome is the completion service's answer; a rejection makes no write call (the rejection reasons are stated in `PayOrderRejectsWithFirstFailure` and the lemmas beside it) |
| `ReconcileProperties.SlipCheckPassesIffAllPass` | server.js:593-626 | the shared guards pass iff the slip is not a known duplicate, the account check passes, the slip is not expired, and the amount is exact |
| `ReconcileProperties.DuplicateReported` | server.js:594-599 | a non-empty reference reported as used is rejected as a duplicate, even when account, age and amount are right |
| `ReconcileProperties.EmptyRefIgnoresDuplicateAnswer` | server.js:590-599 | with an empty reference, the duplicate service is not called and its answer cannot change the verdict |
| `ReconcileProperties.AccountMismatchReported` | server.js:604-609 | a wrong receiving account is reported ahead of the age and amount checks |
| `ReconcileProperties.AmountMismatchCarriesBoth` | server.js:620-626 | an amount rejection carries the expected amount and the slip amount, and the two differ |
| `ReconcileProperties.ResellerPaidExactly` | server.js:620-651 | the reseller pays iff every guard passes. On payment, `paidAmount`, the slip amount and the debt are equal. The last two calls mark exactly the unpaid transactions as paid under the slip reference, and log an `'approved'` payment with the same ids, amount and caller; every call before them is a read, so nothing else is written |
| `ReconcileProperties.NoDebtRejectedBeforeVerification` | server.js:571-579 | no image, a failed lookup or zero debt is rejected before the verifier is called, with no settle or log call |
| `ReconcileProperties.ResellerVerifiesOnlyWithDebt` | server.js:571-584 | the verifier is called iff there is an image and a non-zero debt |
| `ReconcileProperties.ResellerDuplicateCheckNeedsRef` | server.js:589-595 | the duplicate service is called iff the slip was verified and its reference is non-empty |
| `ReconcileProperties.ResellerDuplicateRejected` | server.js:594-599 | a verified slip whose reference is reported used is rejected as a duplicate, whatever its amount |
| `ReconcileProperties.ResellerStaleRejected` | server.js:611-618 | a slip that is not a duplicate, names the right account and is expired is rejected as expired, even with the exact amount |
| `ReconcileProperties.ResellerRejectsWithFirstFailure` | server.js:593-626 | with an image, a debt and a verified slip, a failing guard rejects with the first failed check, in the order duplicate, account, age, amount |
| `ReconcileProperties.ResellerAccountMismatch` | server.js:603-609 | a verified, unused slip whose receiving account fails the check is rejected for the account |
| `ReconcileProperties.ResellerAmountMismatch` | server.js:620-626 | a verified slip that passes the duplicate, account and age guards but differs from the debt is rejected with the debt and the slip amount |
| `ReconcileProperties.MissingAmountNeverSettles` | server.js:591 | a slip without an amount never pays a reseller's debt |
| `ReconcileProperties.ResellerVerifierFailure` | server.js:584-587 | a verifier failure is reported with its message, or the fallback message when that is empty, and nothing is written |
| `ReconcileProperties.UnknownOrderRejectedBeforeVerification` | server.js:683-689 | an order id missing from the pending orders is rejected after the order lookup alone, before verification |
| `ReconcileProperties.PayOrderVerifierFailure` | server.js:691-695 | a verifier failure is reported with the verifier's own message, with no fallback text, after the order lookup and the verifier call only |
| `ReconcileProperties.PayOrderRejectsWithFirstFailure` | server.js:701-725 | with an image, a found order and a verified slip, a failing guard rejects with the first failed check against the order's amount, in the order duplicate, account, amount |
| `ReconcileProperties.PayOrderDuplicateRejected` | server.js:702-707 | a non-empty reference reported as used is rejected as a duplicate |
| `ReconcileProperties.PayOrderAccountMismatch` | server.js:711-717 | a verified, unused slip whose receiving account fails the check is rejected for the account |
| `ReconcileProperties.PayOrderAmountMismatch` | server.js:719-725 | a slip that passes the duplicate and account guards but differs from the order amount is rejected with the order amount and the slip amount |
| `ReconcileProperties.PayOrderIgnoresTimestamp` | server.js:691-725 | the customer handler has no age check: the slip timestamp never changes its response |
| `ReconcileProperties.PayOrderCompletesExactly` | server.js:719-741 | the order is sent for completion iff every guard passes against the first pending order with that id; the slip amount then equals the order amount, and the completion call is the only write before the payment log (the last call when completion fails, the one before the log when it succeeds) |
| `ReconcileProperties.PayOrderLogsOnlyOnCompletion` | server.js:727-741 | a payment log is written iff completion succeeded. It is the last call and records an approved `'customer'` payment of the slip amount for `[orderId]` |
| `ReconcileProperties.ScenarioAccepted` | server.js:602-651 | a 500 slip, unused and issued now, pays 500. The configured account is any three hyphen-free digit groups joined by `-`, and the slip names the same digits without hyphens |
| `ReconcileProperties.ScenarioWrongAmount` | server.js:620-626 | the same slip for 450 is rejected with amounts 500 and 450 |
| `ReconcileProperties.ScenarioDuplicate` | server.js:594-599 | the same slip reported as used is rejected as a duplicate |
| `ReconcileProperties.ScenarioNoDebt` | server.js:577-579 | with zero debt, any slip is rejected for having no outstanding balance |
| `ReconcileProperties.ScenarioExpired` | server.js:612-618 | a slip issued 30 hours ago is rejected as expired |

## Left out

- HTTP routing, middleware, static pages and server start-up are I/O. The decoded token is an input (`Access.User`), so token signing and checking are not modelled.
- The script service, the slip-verification service and the chat-bot notifications are outbound network calls. Their answers are inputs (`ResellerWorld`, `CustomerWorld`). The verifier adapter's rule, status 200 with data means success, is taken as the `Verified`/`VerifyFailed` tag.
- All forwarded CRUD routes are not modelled: their logic lives in the external script service. So are the chat-bot report text and the `/api/orders/renew-with-payment` handler. That handler reads `amount` and `transRef` fields that the verifier adapter never returns, so its amount comparison is vacuous.
- Error texts are represented by `Reconcile.Reason` tags. The reseller's fallback message for a verifier failure stands as the constant `UnreadableSlip`. Amount formatting with `toLocaleString` is left out; the amount rejection carries both amounts.
- The `paidAt` argument of `markResellerTransactionsPaid` is left out. It is read from the clock.
- The reseller handler ignores the results of `markResellerTransactionsPaid` and `savePaymentLog`, and the customer handler ignores the result of `savePaymentLog`. The model records these calls and does not model whether they succeed. The customer handler does branch on the result of `completePendingOrder`, which the model takes as `CustomerWorld.completed`.
- Collaborator answers are assumed well formed. A successful unpaid lookup always carries a numeric amount and a transaction list; in JavaScript a missing list throws at server.js:629. Order amounts and slip amounts are numbers.
- Amounts are integers in minor units. JavaScript floating-point equality of fractional amounts is not modelled.
- Identifiers are compared as strings. A numeric id in the token against the string route parameter would never be equal under `!==`.
- Parsing of the timestamp text is not modelled. A timestamp is absent, unparsable or an instant in milliseconds.
- Two concurrent submissions of the same slip can both pass the duplicate check before either is marked used. Concurrency is outside the model.

=== FILE: access.dfy ===
/**
 * The access rules applied to a caller whose signed token has already been decoded:
 * the role gate `requireRole` (server.js:77-84), the stock-sale permission of order
 * creation (server.js:269-275) and the self-or-owner rule of the commission views
 * (server.js:869 and 923).
 */
module Access {
  import opened Wrappers

  /** The optional permission record carried in a login token. */
  datatype Permissions = Permissions(canBuyWithoutCommission: bool)

  /**
   * The decoded token. Tokens issued at registration carry no permission record,
   * which `permissions == None` stands for.
   */
  datatype User = User(id: string, username: string, role: string, permissions: Option<Permissions>)

  /** `roles.includes(user.role)`: the gate lets the caller through. */
  function RequireRole(roles: seq<string>, user: User): (r: bool)
    ensures r <==> exists i :: 0 <= i < |roles| && roles[i] == user.role
  {
    if roles == [] then false
    else if roles[0] == user.role then true
    else
      var r := RequireRole(roles[1..], user);
      assert r ==> exists i :: 0 <= i < |roles[1..]| && roles[1..][i] == user.role;
      assert forall i :: 1 <= i < |roles| ==> roles[i] == roles[1..][i - 1];
      r
  }

  /** A gate over a longer role list admits everyone a shorter one admits. */
  lemma RequireRoleMonotone(narrow: seq<string>, wide: seq<string>, user: User)
    requires forall i :: 0 <= i < |narrow| ==> narrow[i] in wide
    ensures RequireRole(narrow, user) ==> RequireRole(wide, user)
  {
  }

  /** Whether the caller may buy stock without commission (server.js:270-271). */
  predicate CanBuyStock(user: User)
    ensures user.role == "owner" || user.role == "super_admin" ==> CanBuyStock(user)
    ensures user.permissions.None? && user.role != "owner" && user.role != "super_admin" ==> !CanBuyStock(user)
  {
    || user.role == "owner"
    || user.role == "super_admin"
    || (user.permissions.Some? && user.permissions.value.canBuyWithoutCommission)
  }

  /**
   * The sale-type gate of order creation: a `'stock'` sale needs `CanBuyStock`; every other
   * sale type passes.
   */
  function SaleAllowed(user: User, saleType: string): (r: bool)
    ensures saleType != "stock" ==> r
    ensures user.role == "owner" || user.role == "super_admin" ==> r
    ensures saleType == "stock" && user.role != "owner" && user.role != "super_admin" ==>
      (r <==> user.permissions.Some? && user.permissions.value.canBuyWithoutCommission)
  {
    saleType != "stock" || CanBuyStock(user)
  }

  /** A caller holding a registration token, which carries no permissions, is refused a stock sale unless owner or super admin. */
  lemma RegistrationTokenCannotBuyStock(user: User)
    requires user.permissions.None? && user.role != "owner" && user.role != "super_admin"
    ensures !SaleAllowed(user, "stock")
    ensures SaleAllowed(user, "direct")
  {
  }

  /** The commission-view guard: the owner sees anyone's figures, everybody else only their own. */
  function CanViewCommission(user: User, targetUserId: string): (r: bool)
    ensures user.role == "owner" ==> r
    ensures user.id == targetUserId ==> r
    ensures r ==> user.role == "owner" || user.id == targetUserId
  {
    !(user.role != "owner" && user.id != targetUserId)
  }
}

=== FILE: account.dfy ===
/**
 * The receiving-account check shared by the two slip handlers (server.js:603-609 and 711-717):
 * both account numbers lose their hyphens, and they match when either one contains the other.
 */
module Account {
  import opened Wrappers

  /** `s.replace(/-/g, '')`: every hyphen removed, every other character kept, in order. */
  function StripHyphens(s: string): (r: string)
    ensures '-' !in r
    ensures |r| <= |s|
  {
    if s == [] then []
    else if s[0] == '-' then StripHyphens(s[1..])
    else [s[0]] + StripHyphens(s[1..])
  }

  /** Every character other than '-' is kept, as often as it occurs. */
  lemma {:induction false} StripHyphensKeepsOthers(s: string)
    ensures forall c :: c != '-' ==> multiset(StripHyphens(s))[c] == multiset(s)[c]
  {
    if s != [] {
      assert s == [s[0]] + s[1..];
      StripHyphensKeepsOthers(s[1..]);
    }
  }

  /** Normalisation distributes over concatenation: characters keep their relative order. */
  lemma {:induction false} StripHyphensConcat(a: string, b: string)
    ensures StripHyphens(a + b) == StripHyphens(a) + StripHyphens(b)
  {
    if a == [] {
      assert a + b == b;
    } else {
      assert (a + b)[1..] == a[1..] + b;
      StripHyphensConcat(a[1..], b);
    }
  }

  /** A string without hyphens is already normal. */
  lemma {:induction false} StripHyphensKeepsHyphenFree(s: string)
    requires '-' !in s
    ensures StripHyphens(s) == s
  {
    if s != [] {
      assert s[0] != '-';
      StripHyphensKeepsHyphenFree(s[1..]);
    }
  }

  /** Normalising twice is normalising once. */
  lemma StripHyphensIdempotent(s: string)
    ensures StripHyphens(StripHyphens(s)) == StripHyphens(s)
  {
    StripHyphensKeepsHyphenFree(StripHyphens(s));
  }

  /** A hyphen between two parts disappears and the parts are normalised separately. */
  lemma StripHyphensAroundHyphen(x: string, y: string)
    ensures StripHyphens(x + "-" + y) == StripHyphens(x) + StripHyphens(y)
  {
    StripHyphensConcat(x + "-", y);
    StripHyphensConcat(x, "-");
  }

  /** Digit groups joined by hyphens normalise to the groups run together. */
  lemma StripHyphensJoinsGroups(x: string, y: string, z: string)
    requires '-' !in x && '-' !in y && '-' !in z
    ensures StripHyphens(x + "-" + y + "-" + z) == x + y + z
  {
    StripHyphensAroundHyphen(x + "-" + y, z);
    StripHyphensAroundHyphen(x, y);
    StripHyphensKeepsHyphenFree(x);
    StripHyphensKeepsHyphenFree(y);
    StripHyphensKeepsHyphenFree(z);
  }

  /** `needle` occurs in `hay` starting at index `i`. */
  ghost predicate OccursAt(hay: string, needle: string, i: int)
  {
    0 <= i && i + |needle| <= |hay| && hay[i..i + |needle|] == needle
  }

  /** `hay.includes(needle)`, as JavaScript defines it: the empty string is included everywhere. */
  function Includes(hay: string, needle: string): (r: bool)
    ensures needle == [] ==> r
    ensures r ==> |needle| <= |hay|
    decreases |hay|
  {
    if needle <= hay then true
    else if hay == [] then false
    else Includes(hay[1..], needle)
  }

  /** Dropping the first character of `hay` shifts every occurrence one place to the left. */
  lemma OccursAtShift(hay: string, needle: string, i: nat)
    requires hay != []
    ensures OccursAt(hay[1..], needle, i) <==> OccursAt(hay, needle, i + 1)
  {
    if i + |needle| <= |hay| - 1 {
      assert hay[1..][i..i + |needle|] == hay[i + 1..i + 1 + |needle|];
    }
  }

  /** `Includes` holds exactly when `needle` occurs somewhere in `hay`. */
  lemma {:induction false} IncludesIffOccurs(hay: string, needle: string)
    ensures Includes(hay, needle) <==> exists i :: OccursAt(hay, needle, i)
    decreases |hay|
  {
    if needle <= hay {
      assert OccursAt(hay, needle, 0);
    } else if hay == [] {
      assert forall i :: !OccursAt(hay, needle, i);
    } else {
      assert !OccursAt(hay, needle, 0);
      IncludesIffOccurs(hay[1..], needle);
      if Includes(hay, needle) {
        var i :| OccursAt(hay[1..], needle, i);
        OccursAtShift(hay, needle, i);
      } else {
        forall i | 1 <= i
          ensures !OccursAt(hay, needle, i)
        {
          OccursAtShift(hay, needle, i - 1);
        }
      }
    }
  }

  /** Containment between strings of equal length is equality. */
  lemma {:induction false} IncludesSameLength(hay: string, needle: string)
    requires |hay| == |needle|
    ensures Includes(hay, needle) <==> hay == needle
  {
    if hay != [] && !(needle <= hay) {
      assert !Includes(hay[1..], needle);
    }
  }

  /** The two-way containment test of server.js:606: one normalised number is part of the other. */
  predicate AccountsMatch(ours: string, receiver: string)
    ensures ours == receiver ==> AccountsMatch(ours, receiver)
    ensures ours == "" || receiver == "" ==> AccountsMatch(ours, receiver)
  {
    Includes(receiver, ours) || Includes(ours, receiver)
  }

  /** The configured account number, normalised; an absent or all-hyphen number becomes `''`. */
  function OurAccount(configured: Option<string>): (r: string)
    ensures '-' !in r
    ensures configured.None? ==> r == ""
    ensures configured.Some? ==> r == StripHyphens(configured.value)
  {
    match configured
    case None => ""
    case Some(n) => StripHyphens(n)
  }

  /**
   * The receiving-account check of server.js:603-609. It is skipped (passes) when our
   * normalised account is empty or the slip's receiver value is absent or empty; otherwise
   * the normalised numbers must contain one another.
   */
  function AccountCheckPasses(configured: Option<string>, receiver: Option<string>): (r: bool)
    ensures OurAccount(configured) == "" ==> r
    ensures receiver.None? || receiver == Some("") ==> r
    ensures r <==> AccountCheckSpec(configured, receiver)
  {
    var ours := OurAccount(configured);
    if ours == "" || receiver.None? || receiver.value == "" then true
    else
      var theirs := StripHyphens(receiver.value);
      IncludesIffOccurs(theirs, ours);
      IncludesIffOccurs(ours, theirs);
      AccountsMatch(ours, theirs)
  }

  /** Reference statement of the account check in terms of substring occurrence. */
  ghost predicate AccountCheckSpec(configured: Option<string>, receiver: Option<string>)
  {
    var ours := OurAccount(configured);
    || ours == ""
    || receiver.None?
    || receiver.value == ""
    || (exists i :: OccursAt(StripHyphens(receiver.value), ours, i))
    || (exists i :: OccursAt(ours, StripHyphens(receiver.value), i))
  }

  /** The check is insensitive to hyphens on either side. */
  lemma {:induction false} AccountCheckIgnoresHyphens(configured: string, receiver: string)
    ensures AccountCheckPasses(Some(configured), Some(receiver))
        == AccountCheckPasses(Some(StripHyphens(configured)), Some(StripHyphens(receiver)))
  {
    StripHyphensIdempotent(configured);
    StripHyphensIdempotent(receiver);
  }

  /** The account check is symmetric: swapping the configured and the receiver number keeps the verdict. */
  lemma AccountCheckSymmetric(a: Option<string>, b: Option<string>)
    ensures AccountCheckPasses(a, b) == AccountCheckPasses(b, a)
  {
  }

  /** A receiver value that normalises to the empty string passes against every configured account. */
  lemma EmptyNormalReceiverPasses(configured: Option<string>, receiver: string)
    requires StripHyphens(receiver) == ""
    ensures AccountCheckPasses(configured, Some(receiver))
  {
  }

  /** A receiver number printed without the hyphens of the configured one matches it. */
  lemma HyphenatedAccountMatches(x: string, y: string, z: string)
    requires '-' !in x && '-' !in y && '-' !in z
    ensures AccountCheckPasses(Some(x + "-" + y + "-" + z), Some(x + y + z))
  {
    StripHyphensJoinsGroups(x, y, z);
    StripHyphensKeepsHyphenFree(x + y + z);
  }

  /**
   * A truncated number, any contiguous part of a hyphen-free full number, matches the
   * full one whichever side it is on.
   */
  lemma TruncatedAccountMatches(full: string, i: nat, j: nat)
    requires '-' !in full && i <= j <= |full|
    ensures AccountCheckPasses(Some(full[i..j]), Some(full))
    ensures AccountCheckPasses(Some(full), Some(full[i..j]))
  {
    var part := full[i..j];
    assert '-' !in part by {
      forall k | 0 <= k < |part| ensures part[k] != '-' {
        assert part[k] == full[i + k];
      }
    }
    StripHyphensKeepsHyphenFree(full);
    StripHyphensKeepsHyphenFree(part);
    assert OccursAt(full, part, i);
    IncludesIffOccurs(full, part);
  }

  /** A different, hyphen-free number of the same length does not match. */
  lemma DifferentAccountMismatches(a: string, b: string)
    requires '-' !in a && '-' !in b && a != "" && |a| == |b| && a != b
    ensures !AccountCheckPasses(Some(a), Some(b))
  {
    StripHyphensKeepsHyphenFree(a);
    StripHyphensKeepsHyphenFree(b);
    IncludesSameLength(a, b);
    IncludesSameLength(b, a);
  }
}

=== FILE: properties.dfy ===
/**
 * What the two slip-payment handlers guarantee, stated over every request and every
 * combination of collaborator answers.
 */
module ReconcileProperties {
  import opened Wrappers
  import opened Access
  import opened Account
  import opened Slip
  import opened Reconcile

  // ---------------------------------------------------------------------------
  // The ordered guards shared by both handlers
  // ---------------------------------------------------------------------------

  /** Short-circuiting never hides a failure: the checks pass together or one of them is reported. */
  lemma SlipCheckPassesIffAllPass(slip: SlipData, isDuplicate: bool, bankAccount: Option<string>, now: Option<int>, expected: int)
    ensures SlipCheck(slip, isDuplicate, bankAccount, now, expected).None? <==>
      && !(SlipRef(slip) != "" && isDuplicate)
      && AccountCheckPasses(bankAccount, slip.receiverAccount)
      && !(now.Some? && IsExpired(slip.transTimestamp, now.value))
      && SlipAmount(slip) == expected
  {
  }

  /** A duplicate reference is reported as such even when account, age and amount are all right. */
  lemma DuplicateReported(slip: SlipData, bankAccount: Option<string>, now: Option<int>, expected: int)
    requires SlipRef(slip) != ""
    ensures SlipCheck(slip, true, bankAccount, now, expected) == Some(DuplicateSlip)
  {
  }

  /** With an empty reference the duplicate answer plays no part. */
  lemma EmptyRefIgnoresDuplicateAnswer(slip: SlipData, bankAccount: Option<string>, now: Option<int>, expected: int)
    requires SlipRef(slip) == ""
    ensures SlipCheck(slip, true, bankAccount, now, expected) == SlipCheck(slip, false, bankAccount, now, expected)
    ensures CheckCalls(slip, true) == CheckCalls(slip, false) == [GetBankAccount]
  {
  }

  /** A wrong receiving account is reported ahead of the age and the amount. */
  lemma AccountMismatchReported(slip: SlipData, isDuplicate: bool, bankAccount: Option<string>, now: Option<int>, expected: int)
    requires !(SlipRef(slip) != "" && isDuplicate)
    requires !AccountCheckPasses(bankAccount, slip.receiverAccount)
    ensures SlipCheck(slip, isDuplicate, bankAccount, now, expected) == Some(AccountMismatch)
  {
  }

  /** An amount mismatch carries the expected and the slip amount, and they differ. */
  lemma AmountMismatchCarriesBoth(slip: SlipData, isDuplicate: bool, bankAccount: Option<string>, now: Option<int>, expected: int)
    requires SlipCheck(slip, isDuplicate, bankAccount, now, expected).Some?
    requires SlipCheck(slip, isDuplicate, bankAccount, now, expected).value.AmountMismatch?
    ensures SlipCheck(slip, isDuplicate, bankAccount, now, expected).value.expected == expected
    ensures SlipCheck(slip, isDuplicate, bankAccount, now, expected).value.actual == SlipAmount(slip)
    ensures expected != SlipAmount(slip)
  {
  }

  // ---------------------------------------------------------------------------
  // Reseller handler
  // ---------------------------------------------------------------------------

  /** The reseller handler settles exactly when every guard passes, evaluated independently of order. */
  ghost predicate ResellerAcceptable(slipImage: string, w: ResellerWorld)
  {
    && slipImage != ""
    && w.unpaid.Unpaid?
    && w.unpaid.amount != 0
    && w.verification.Verified?
    && FailedChecks(w.verification.data, w.isDuplicate, w.bankAccount, Some(w.now), w.unpaid.amount) == []
  }

  /**
   * A settled payment: paid amount, slip amount and debt coincide; the last two calls
   * mark exactly the unpaid transactions paid under the slip reference and log an
   * approved payment of that amount for those transactions, and every call before them reads.
   */
  lemma ResellerPaidExactly(user: User, slipImage: string, w: ResellerWorld)
    ensures SubmitPayment(user, slipImage, w).outcome.Paid? <==> ResellerAcceptable(slipImage, w)
    ensures
      var r := SubmitPayment(user, slipImage, w);
      r.outcome.Paid? ==>
        var slip := w.verification.data;
        var ids := w.unpaid.transactionIds;
        && r.outcome.paidAmount == SlipAmount(slip) == w.unpaid.amount
        && |r.calls| >= 2
        && NoWrites(r.calls[..|r.calls| - 2])
        && r.calls[|r.calls| - 2..] == [
             MarkResellerTransactionsPaid(ids, SlipRef(slip)),
             SavePaymentLog(PaymentLog(user.id, user.username, user.role, SlipAmount(slip), SlipRef(slip), "approved", ids))]
  {
    var r := SubmitPayment(user, slipImage, w);
    if r.outcome.Paid? {
      var prefix := [GetResellerUnpaidAmount(user.id), VerifySlip(slipImage)] + CheckCalls(w.verification.data, w.isDuplicate);
      assert r.calls[..|r.calls| - 2] == prefix;
    }
  }

  /**
   * No image, a failed debt lookup or zero debt: rejected before the verifier is called,
   * and nothing is settled or logged.
   */
  lemma NoDebtRejectedBeforeVerification(user: User, slipImage: string, w: ResellerWorld)
    requires slipImage == "" || w.unpaid.LookupFailed? || w.unpaid.amount == 0
    ensures SubmitPayment(user, slipImage, w).outcome.Rejected?
    ensures forall c :: c in SubmitPayment(user, slipImage, w).calls ==> !c.VerifySlip? && !c.IsWrite()
    ensures slipImage != "" ==>
      SubmitPayment(user, slipImage, w) == Response(Rejected(NoOutstandingBalance), [GetResellerUnpaidAmount(user.id)])
  {
  }

  /** The verifier is called only for a reseller who has an image and owes something. */
  lemma ResellerVerifiesOnlyWithDebt(user: User, slipImage: string, w: ResellerWorld)
    ensures VerifySlip(slipImage) in SubmitPayment(user, slipImage, w).calls <==>
      slipImage != "" && w.unpaid.Unpaid? && w.unpaid.amount != 0
  {
  }

  /** The duplicate service is consulted only for a verified slip with a non-empty reference. */
  lemma ResellerDuplicateCheckNeedsRef(user: User, slipImage: string, w: ResellerWorld)
    ensures (exists c :: c in SubmitPayment(user, slipImage, w).calls && c.CheckDuplicateSlip?) <==>
      && slipImage != "" && w.unpaid.Unpaid? && w.unpaid.amount != 0
      && w.verification.Verified? && SlipRef(w.verification.data) != ""
  {
    var r := SubmitPayment(user, slipImage, w);
    if slipImage != "" && w.unpaid.Unpaid? && w.unpaid.amount != 0
       && w.verification.Verified? && SlipRef(w.verification.data) != "" {
      assert CheckDuplicateSlip(SlipRef(w.verification.data)) in r.calls;
    }
  }

  /** A verified slip that reached the duplicate check and was reported used is refused, whatever its amount. */
  lemma ResellerDuplicateRejected(user: User, slipImage: string, w: ResellerWorld)
    requires slipImage != "" && w.unpaid.Unpaid? && w.unpaid.amount != 0
    requires w.verification.Verified? && SlipRef(w.verification.data) != "" && w.isDuplicate
    ensures SubmitPayment(user, slipImage, w).outcome == Rejected(DuplicateSlip)
  {
  }

  /** A stale slip sent to the right account is refused as expired, even with the exact amount. */
  lemma ResellerStaleRejected(user: User, slipImage: string, w: ResellerWorld)
    requires slipImage != "" && w.unpaid.Unpaid? && w.unpaid.amount != 0 && w.verification.Verified?
    requires !(SlipRef(w.verification.data) != "" && w.isDuplicate)
    requires AccountCheckPasses(w.bankAccount, w.verification.data.receiverAccount)
    requires IsExpired(w.verification.data.transTimestamp, w.now)
    ensures SubmitPayment(user, slipImage, w).outcome == Rejected(SlipExpired)
  {
  }

  /** Once the slip is verified, a rejection carries the first failing guard, in the handler's order. */
  lemma ResellerRejectsWithFirstFailure(user: User, slipImage: string, w: ResellerWorld)
    requires slipImage != "" && w.unpaid.Unpaid? && w.unpaid.amount != 0 && w.verification.Verified?
    requires FailedChecks(w.verification.data, w.isDuplicate, w.bankAccount, Some(w.now), w.unpaid.amount) != []
    ensures SubmitPayment(user, slipImage, w).outcome ==
      Rejected(FailedChecks(w.verification.data, w.isDuplicate, w.bankAccount, Some(w.now), w.unpaid.amount)[0])
  {
  }

  /** A verified, unused slip naming another receiving account is refused for the account. */
  lemma ResellerAccountMismatch(user: User, slipImage: string, w: ResellerWorld)
    requires slipImage != "" && w.unpaid.Unpaid? && w.unpaid.amount != 0 && w.verification.Verified?
    requires !(SlipRef(w.verification.data) != "" && w.isDuplicate)
    requires !AccountCheckPasses(w.bankAccount, w.verification.data.receiverAccount)
    ensures SubmitPayment(user, slipImage, w).outcome == Rejected(AccountMismatch)
  {
  }

  /** A slip that passes every other guard but differs from the debt is refused with both amounts. */
  lemma ResellerAmountMismatch(user: User, slipImage: string, w: ResellerWorld)
    requires slipImage != "" && w.unpaid.Unpaid? && w.unpaid.amount != 0 && w.verification.Verified?
    requires !(SlipRef(w.verification.data) != "" && w.isDuplicate)
    requires AccountCheckPasses(w.bankAccount, w.verification.data.receiverAccount)
    requires !IsExpired(w.verification.data.transTimestamp, w.now)
    requires SlipAmount(w.verification.data) != w.unpaid.amount
    ensures SubmitPayment(user, slipImage, w).outcome ==
      Rejected(AmountMismatch(w.unpaid.amount, SlipAmount(w.verification.data)))
  {
  }

  /** A slip without an amount never settles: the debt reaching the amount check is non-zero. */
  lemma MissingAmountNeverSettles(user: User, slipImage: string, w: ResellerWorld)
    requires w.verification.Verified? && w.verification.data.amount.None?
    ensures !SubmitPayment(user, slipImage, w).outcome.Paid?
  {
  }

  /** The verifier's failure message is passed on, or replaced by the fallback when empty. */
  lemma ResellerVerifierFailure(user: User, slipImage: string, w: ResellerWorld)
    requires slipImage != "" && w.unpaid.Unpaid? && w.unpaid.amount != 0 && w.verification.VerifyFailed?
    ensures SubmitPayment(user, slipImage, w).outcome ==
      Rejected(VerificationFailed(if w.verification.error == "" then UnreadableSlip else w.verification.error))
    ensures NoWrites(SubmitPayment(user, slipImage, w).calls)
  {
  }

  // ---------------------------------------------------------------------------
  // Customer pay-order handler
  // ---------------------------------------------------------------------------

  /** An order id absent from the caller's pending orders is refused before the verifier is called. */
  lemma UnknownOrderRejectedBeforeVerification(user: User, orderId: string, slipImage: string, w: CustomerWorld)
    requires slipImage != ""
    requires w.orders.None? || forall k :: 0 <= k < |w.orders.value| ==> w.orders.value[k].id != orderId
    ensures PayOrder(user, orderId, slipImage, w) == Response(Rejected(OrderNotFound), [GetPendingOrders(user.id)])
  {
  }

  /** The verifier's message is passed on as it is, with no fallback text, and nothing is written. */
  lemma PayOrderVerifierFailure(user: User, orderId: string, slipImage: string, w: CustomerWorld)
    requires slipImage != "" && PendingOrder(w.orders, orderId).Some? && w.verification.VerifyFailed?
    ensures PayOrder(user, orderId, slipImage, w) ==
      Response(Rejected(VerificationFailed(w.verification.error)), [GetPendingOrders(user.id), VerifySlip(slipImage)])
  {
  }

  /** Once the slip is verified, a rejection carries the first failing guard against the found order. */
  lemma PayOrderRejectsWithFirstFailure(user: User, orderId: string, slipImage: string, w: CustomerWorld)
    requires slipImage != "" && PendingOrder(w.orders, orderId).Some? && w.verification.Verified?
    requires FailedChecks(w.verification.data, w.isDuplicate, w.bankAccount, None, PendingOrder(w.orders, orderId).value.amount) != []
    ensures PayOrder(user, orderId, slipImage, w).outcome ==
      Rejected(FailedChecks(w.verification.data, w.isDuplicate, w.bankAccount, None, PendingOrder(w.orders, orderId).value.amount)[0])
  {
  }

  /** A used, non-empty reference is refused as a duplicate, whatever the account and amount. */
  lemma PayOrderDuplicateRejected(user: User, orderId: string, slipImage: string, w: CustomerWorld)
    requires slipImage != "" && PendingOrder(w.orders, orderId).Some? && w.verification.Verified?
    requires SlipRef(w.verification.data) != "" && w.isDuplicate
    ensures PayOrder(user, orderId, slipImage, w).outcome == Rejected(DuplicateSlip)
  {
  }

  /** A verified, unused slip naming another receiving account is refused for the account. */
  lemma PayOrderAccountMismatch(user: User, orderId: string, slipImage: string, w: CustomerWorld)
    requires slipImage != "" && PendingOrder(w.orders, orderId).Some? && w.verification.Verified?
    requires !(SlipRef(w.verification.data) != "" && w.isDuplicate)
    requires !AccountCheckPasses(w.bankAccount, w.verification.data.receiverAccount)
    ensures PayOrder(user, orderId, slipImage, w).outcome == Rejected(AccountMismatch)
  {
  }

  /** A slip for another amount than the first matching order is refused with both amounts. */
  lemma PayOrderAmountMismatch(user: User, orderId: string, slipImage: string, w: CustomerWorld)
    requires slipImage != "" && PendingOrder(w.orders, orderId).Some? && w.verification.Verified?
    requires !(SlipRef(w.verification.data) != "" && w.isDuplicate)
    requires AccountCheckPasses(w.bankAccount, w.verification.data.receiverAccount)
    requires SlipAmount(w.verification.data) != PendingOrder(w.orders, orderId).value.amount
    ensures PayOrder(user, orderId, slipImage, w).outcome ==
      Rejected(AmountMismatch(PendingOrder(w.orders, orderId).value.amount, SlipAmount(w.verification.data)))
  {
  }

  /** The pay-order handler has no age check: the slip's timestamp never changes the answer. */
  lemma PayOrderIgnoresTimestamp(user: User, orderId: string, slipImage: string, w: CustomerWorld, t: SlipTime)
    requires w.verification.Verified?
    ensures PayOrder(user, orderId, slipImage, w) ==
      PayOrder(user, orderId, slipImage, w.(verification := Verified(w.verification.data.(transTimestamp := t))))
  {
  }

  /**
   * The order is handed to the completion service exactly when every guard passes against
   * the first pending order with that id; then the slip amount equals the order amount, and
   * the completion call is the only write before the payment log.
   */
  lemma PayOrderCompletesExactly(user: User, orderId: string, slipImage: string, w: CustomerWorld)
    ensures
      var r := PayOrder(user, orderId, slipImage, w);
      var order := PendingOrder(w.orders, orderId);
      && (r.outcome.Forwarded? <==>
            && slipImage != "" && order.Some? && w.verification.Verified?
            && FailedChecks(w.verification.data, w.isDuplicate, w.bankAccount, None, order.value.amount) == [])
      && (r.outcome.Forwarded? ==>
            && SlipAmount(w.verification.data) == order.value.amount
            && var n := if r.outcome == Forwarded(true) then 2 else 1;
               && |r.calls| >= n
               && NoWrites(r.calls[..|r.calls| - n])
               && r.calls[|r.calls| - n] == CompletePendingOrder(orderId, SlipRef(w.verification.data)))
  {
    var r := PayOrder(user, orderId, slipImage, w);
    if slipImage != "" && PendingOrder(w.orders, orderId).Some? && w.verification.Verified? {
      var slip := w.verification.data;
      var order := PendingOrder(w.orders, orderId).value;
      if SlipCheck(slip, w.isDuplicate, w.bankAccount, None, order.amount).None? {
        var prefix := [GetPendingOrders(user.id), VerifySlip(slipImage)] + CheckCalls(slip, w.isDuplicate);
        var complete := prefix + [CompletePendingOrder(orderId, SlipRef(slip))];
        assert r.calls == complete || r.calls[..|r.calls| - 1] == complete;
        assert complete[..|complete| - 1] == prefix;
      }
    }
  }

  /**
   * The payment log is written only after the completion service succeeds, and then records an
   * approved customer payment of the slip amount for that one order.
   */
  lemma PayOrderLogsOnlyOnCompletion(user: User, orderId: string, slipImage: string, w: CustomerWorld)
    ensures
      var r := PayOrder(user, orderId, slipImage, w);
      && ((exists c :: c in r.calls && c.SavePaymentLog?) <==> r.outcome == Forwarded(true))
      && (r.outcome == Forwarded(true) ==>
            r.calls[|r.calls| - 1] == SavePaymentLog(PaymentLog(user.id, user.username, "customer",
              SlipAmount(w.verification.data), SlipRef(w.verification.data), "approved", [orderId])))
  {
    var r := PayOrder(user, orderId, slipImage, w);
    if r.outcome == Forwarded(true) {
      assert r.calls[|r.calls| - 1] in r.calls;
    }
  }

  // ---------------------------------------------------------------------------
  // Worked scenarios: the configured account is three hyphen-free digit groups
  // joined by '-'; the slip names the same number without hyphens.
  // ---------------------------------------------------------------------------

  predicate DigitGroups(x: string, y: string, z: string)
  {
    '-' !in x && '-' !in y && '-' !in z
  }

  function ScenarioSlip(x: string, y: string, z: string, amount: int, timestamp: int): SlipData
  {
    SlipData(Some("R1"), Some(amount), Some(x + y + z), At(timestamp))
  }

  function ScenarioWorld(x: string, y: string, z: string, slip: SlipData, debt: int, isDuplicate: bool, now: int): ResellerWorld
  {
    ResellerWorld(Unpaid(debt, ["T1", "T2"]), Verified(slip), isDuplicate, Some(x + "-" + y + "-" + z), now)
  }

  /** A matching slip for 500 to the configured account, issued now, settles 500. */
  lemma ScenarioAccepted(user: User, x: string, y: string, z: string, now: int)
    requires DigitGroups(x, y, z)
    ensures SubmitPayment(user, "img", ScenarioWorld(x, y, z, ScenarioSlip(x, y, z, 500, now), 500, false, now)).outcome
      == Paid(500)
  {
    HyphenatedAccountMatches(x, y, z);
  }

  /** The same slip for 450 is refused, and the rejection names both amounts. */
  lemma ScenarioWrongAmount(user: User, x: string, y: string, z: string, now: int)
    requires DigitGroups(x, y, z)
    ensures SubmitPayment(user, "img", ScenarioWorld(x, y, z, ScenarioSlip(x, y, z, 450, now), 500, false, now)).outcome
      == Rejected(AmountMismatch(500, 450))
  {
    HyphenatedAccountMatches(x, y, z);
  }

  /** The same slip reported as used is refused as a duplicate. */
  lemma ScenarioDuplicate(user: User, x: string, y: string, z: string, now: int)
    ensures SubmitPayment(user, "img", ScenarioWorld(x, y, z, ScenarioSlip(x, y, z, 500, now), 500, true, now)).outcome
      == Rejected(DuplicateSlip)
  {
  }

  /** With nothing owed, any slip is refused. */
  lemma ScenarioNoDebt(user: User, x: string, y: string, z: string, slip: SlipData, now: int)
    ensures SubmitPayment(user, "img", ScenarioWorld(x, y, z, slip, 0, false, now)).outcome == Rejected(NoOutstandingBalance)
  {
  }

  /** A slip issued 30 hours ago is refused as expired. */
  lemma ScenarioExpired(user: User, x: string, y: string, z: string, now: int)
    requires DigitGroups(x, y, z)
    ensures SubmitPayment(user, "img", ScenarioWorld(x, y, z, ScenarioSlip(x, y, z, 500, now - 30 * 3_600_000), 500, false, now)).outcome
      == Rejected(SlipExpired)
  {
    HyphenatedAccountMatches(x, y, z);
  }
}

=== FILE: reconcile.dfy ===
/**
 * The two slip-payment handlers: `/api/reseller/submit-payment` (server.js:568-652), which
 * settles a reseller's outstanding debt, and `/api/customer/pay-order` (server.js:676-744),
 * which pays one pending order. Each is a function from the request and the answers of its
 * collaborators to the outcome and the list of collaborator calls the handler makes, in order.
 */
module Reconcile {
  import opened Wrappers
  import opened Access
  import opened Account
  import opened Slip

  /** Why a handler refused the payment, one reason per guard. */
  datatype Reason =
    | MissingSlipImage
    | NoOutstandingBalance
    | OrderNotFound
    | VerificationFailed(message: string)
    | DuplicateSlip
    | AccountMismatch
    | SlipExpired
    | AmountMismatch(expected: int, actual: int)

  /**
   * The handler's answer: a rejection; the reseller's success with its `paidAmount`; or the
   * order-completion service's own answer, which the customer handler passes through.
   */
  datatype Outcome =
    | Rejected(reason: Reason)
    | Paid(paidAmount: int)
    | Forwarded(completed: bool)

  /** The record written by `savePaymentLog`. */
  datatype PaymentLog = PaymentLog(
    userId: string,
    userName: string,
    userRole: string,
    amount: int,
    slipRef: string,
    status: string,
    transactionIds: seq<string>)

  /** The collaborator calls a handler can make. */
  datatype Call =
    | GetResellerUnpaidAmount(userId: string)
    | GetPendingOrders(pendingUserId: string)
    | VerifySlip(image: string)
    | CheckDuplicateSlip(ref: string)
    | GetBankAccount
    | MarkResellerTransactionsPaid(paidIds: seq<string>, paidRef: string)
    | CompletePendingOrder(orderId: string, orderRef: string)
    | SavePaymentLog(log: PaymentLog)
  {
    /** The calls that settle debt or record a payment. */
    predicate IsWrite()
    {
      MarkResellerTransactionsPaid? || CompletePendingOrder? || SavePaymentLog?
    }
  }

  datatype Response = Response(outcome: Outcome, calls: seq<Call>)

  /** `getResellerUnpaidAmount`'s answer: failure, or the amount owed and the transactions it covers. */
  datatype UnpaidLookup = LookupFailed | Unpaid(amount: int, transactionIds: seq<string>)

  /** A pending order as `getPendingOrders` lists it. */
  datatype Order = Order(id: string, amount: int)

  /** What the reseller handler's collaborators answer, and the clock reading at the age check. */
  datatype ResellerWorld = ResellerWorld(
    unpaid: UnpaidLookup,
    verification: Verification,
    isDuplicate: bool,
    bankAccount: Option<string>,
    now: int)

  /** What the customer handler's collaborators answer (`orders` is absent when the lookup fails). */
  datatype CustomerWorld = CustomerWorld(
    orders: Option<seq<Order>>,
    verification: Verification,
    isDuplicate: bool,
    bankAccount: Option<string>,
    completed: bool)

  /** The fallback message of the reseller handler when the verifier gives none. */
  const UnreadableSlip: string := "slip could not be read"

  /** No call in the list settles debt or records a payment. */
  predicate NoWrites(calls: seq<Call>)
  {
    forall c :: c in calls ==> !c.IsWrite()
  }

  /**
   * Every check that fails on a verified slip, in the handler's order, each evaluated on its own:
   * the duplicate reference (only when the reference is non-empty), the receiving account, the
   * age (only when `now` is given: the reseller handler), and the exact amount.
   */
  function FailedChecks(slip: SlipData, isDuplicate: bool, bankAccount: Option<string>, now: Option<int>, expected: int): seq<Reason>
  {
    (if SlipRef(slip) != "" && isDuplicate then [DuplicateSlip] else [])
    + (if !AccountCheckPasses(bankAccount, slip.receiverAccount) then [AccountMismatch] else [])
    + (if now.Some? && IsExpired(slip.transTimestamp, now.value) then [SlipExpired] else [])
    + (if SlipAmount(slip) != expected then [AmountMismatch(expected, SlipAmount(slip))] else [])
  }

  /**
   * The guards of a verified slip, run in order and stopping at the first that fails
   * (server.js:593-626 and 701-725). The result is the first failed check, if any.
   */
  function SlipCheck(slip: SlipData, isDuplicate: bool, bankAccount: Option<string>, now: Option<int>, expected: int): (r: Option<Reason>)
    ensures r.None? <==> FailedChecks(slip, isDuplicate, bankAccount, now, expected) == []
    ensures r.Some? ==> r.value == FailedChecks(slip, isDuplicate, bankAccount, now, expected)[0]
  {
    if SlipRef(slip) != "" && isDuplicate then Some(DuplicateSlip)
    else if !AccountCheckPasses(bankAccount, slip.receiverAccount) then Some(AccountMismatch)
    else if now.Some? && IsExpired(slip.transTimestamp, now.value) then Some(SlipExpired)
    else if SlipAmount(slip) != expected then Some(AmountMismatch(expected, SlipAmount(slip)))
    else None
  }

  /** The read calls made after a successful verification, before any guard rejects. */
  function CheckCalls(slip: SlipData, isDuplicate: bool): (r: seq<Call>)
    ensures CheckDuplicateSlip(SlipRef(slip)) in r <==> SlipRef(slip) != ""
    ensures GetBankAccount in r <==> !(SlipRef(slip) != "" && isDuplicate)
    ensures forall c :: c in r ==> !c.IsWrite()
  {
    var ref := SlipRef(slip);
    (if ref != "" then [CheckDuplicateSlip(ref)] else [])
    + (if ref != "" && isDuplicate then [] else [GetBankAccount])
  }

  /** The reseller handler, `/api/reseller/submit-payment`. */
  function SubmitPayment(user: User, slipImage: string, w: ResellerWorld): (r: Response)
    ensures slipImage == "" ==> r == Response(Rejected(MissingSlipImage), [])
    ensures !r.outcome.Forwarded?
    ensures r.outcome.Paid? <==> r.calls != [] && r.calls[|r.calls| - 1].SavePaymentLog?
    ensures !r.outcome.Paid? ==> NoWrites(r.calls)
  {
    if slipImage == "" then Response(Rejected(MissingSlipImage), [])
    else
      var lookup := [GetResellerUnpaidAmount(user.id)];
      if w.unpaid.LookupFailed? || w.unpaid.amount == 0 then Response(Rejected(NoOutstandingBalance), lookup)
      else
        var verify := lookup + [VerifySlip(slipImage)];
        match w.verification
        case VerifyFailed(e) =>
          Response(Rejected(VerificationFailed(if e == "" then UnreadableSlip else e)), verify)
        case Verified(slip) =>
          var checks := verify + CheckCalls(slip, w.isDuplicate);
          match SlipCheck(slip, w.isDuplicate, w.bankAccount, Some(w.now), w.unpaid.amount)
          case Some(reason) => Response(Rejected(reason), checks)
          case None =>
            var ids := w.unpaid.transactionIds;
            var ref := SlipRef(slip);
            var amount := SlipAmount(slip);
            var log := PaymentLog(user.id, user.username, user.role, amount, ref, "approved", ids);
            Response(Paid(amount), checks + [MarkResellerTransactionsPaid(ids, ref), SavePaymentLog(log)])
  }

  /** `orders.find(o => o.id === orderId)`: the first order with the given id. */
  function FindOrder(orders: seq<Order>, orderId: string): (r: Option<Order>)
    ensures r.None? <==> forall k :: 0 <= k < |orders| ==> orders[k].id != orderId
    ensures r.Some? ==> exists k :: 0 <= k < |orders| && orders[k] == r.value && r.value.id == orderId
                                   && forall j :: 0 <= j < k ==> orders[j].id != orderId
  {
    if orders == [] then None
    else if orders[0].id == orderId then Some(orders[0])
    else
      var r := FindOrder(orders[1..], orderId);
      assert forall k :: 1 <= k < |orders| ==> orders[k] == orders[1..][k - 1];
      if r.Some? then
        var k :| 0 <= k < |orders[1..]| && orders[1..][k] == r.value && r.value.id == orderId
                 && forall j :: 0 <= j < k ==> orders[1..][j].id != orderId;
        assert orders[k + 1] == r.value;
        r
      else r
  }

  /** `pendingResult.orders?.find(...)`: no order when the lookup returned no list. */
  function PendingOrder(orders: Option<seq<Order>>, orderId: string): (r: Option<Order>)
    ensures orders.None? ==> r.None?
    ensures r.Some? ==> orders.Some? && r.value in orders.value && r.value.id == orderId
    ensures orders.Some? && r.None? ==> forall k :: 0 <= k < |orders.value| ==> orders.value[k].id != orderId
    ensures orders.Some? ==> r == FindOrder(orders.value, orderId)
  {
    match orders
    case None => None
    case Some(os) => FindOrder(os, orderId)
  }

  /** The customer handler, `/api/customer/pay-order`. */
  function PayOrder(user: User, orderId: string, slipImage: string, w: CustomerWorld): (r: Response)
    ensures slipImage == "" ==> r == Response(Rejected(MissingSlipImage), [])
    ensures !r.outcome.Paid?
    ensures r.outcome.Forwarded? ==> r.outcome.completed == w.completed
    ensures r.outcome.Rejected? ==> NoWrites(r.calls)
  {
    if slipImage == "" then Response(Rejected(MissingSlipImage), [])
    else
      var lookup := [GetPendingOrders(user.id)];
      match PendingOrder(w.orders, orderId)
      case None => Response(Rejected(OrderNotFound), lookup)
      case Some(order) =>
        var verify := lookup + [VerifySlip(slipImage)];
        match w.verification
        case VerifyFailed(e) => Response(Rejected(VerificationFailed(e)), verify)
        case Verified(slip) =>
          var checks := verify + CheckCalls(slip, w.isDuplicate);
          match SlipCheck(slip, w.isDuplicate, w.bankAccount, None, order.amount)
          case Some(reason) => Response(Rejected(reason), checks)
          case None =>
            var ref := SlipRef(slip);
            var complete := checks + [CompletePendingOrder(orderId, ref)];
            if w.completed then
              var log := PaymentLog(user.id, user.username, "customer", SlipAmount(slip), ref, "approved", [orderId]);
              Response(Forwarded(true), complete + [SavePaymentLog(log)])
            else Response(Forwarded(false), complete)
  }
}

=== FILE: slip.dfy ===
/**
 * The verified slip as the payment handlers read it (server.js:589-591, 604, 612), and
 * the 24-hour freshness rule of the reseller handler (server.js:611-618).
 */
module Slip {
  import opened Wrappers

  /**
   * The slip's `transTimestamp`: absent (or empty), present but not a date JavaScript can
   * parse, or an instant in milliseconds since the epoch.
   */
  datatype SlipTime = NoTimestamp | Unparsable | At(millis: int)

  /**
   * The fields of the verifier's `data` record the handlers use. Amounts are in minor
   * currency units; the receiver is `receiver.account.value`.
   */
  datatype SlipData = SlipData(
    transRef: Option<string>,
    amount: Option<int>,
    receiverAccount: Option<string>,
    transTimestamp: SlipTime)

  /** The verifier adapter's answer: a failure message, or the slip data. */
  datatype Verification = VerifyFailed(error: string) | Verified(data: SlipData)

  /** `slipData.transRef || ''`. */
  function SlipRef(slip: SlipData): (r: string)
    ensures r == "" <==> slip.transRef.None? || slip.transRef == Some("")
    ensures r != "" ==> slip.transRef == Some(r)
  {
    slip.transRef.GetOr("")
  }

  /** `slipData.amount?.amount || 0`: a missing amount reads as zero. */
  function SlipAmount(slip: SlipData): (r: int)
    ensures slip.amount.None? ==> r == 0
    ensures r != 0 ==> slip.amount == Some(r)
    ensures slip.amount.Some? ==> r == slip.amount.value
  {
    slip.amount.GetOr(0)
  }

  const HourMillis: int := 60 * 60 * 1000
  const MaxAgeHours: int := 24

  /**
   * The freshness rule: a parsed timestamp more than 24 hours before `now`. An absent
   * timestamp skips the check, and so does an unparsable one, whose age in hours is NaN.
   */
  predicate IsExpired(t: SlipTime, now: int)
    ensures IsExpired(t, now) ==> t.At? && t.millis < now
    ensures t.At? && now <= t.millis + 86_400_000 ==> !IsExpired(t, now)
  {
    t.At? && now - t.millis > MaxAgeHours * HourMillis
  }

  /**
   * The handler computes the age as a fractional number of hours and compares it with 24:
   * that comparison agrees with `IsExpired`, and the limit is 86,400,000 ms.
   */
  lemma ExpiredIffOverOneDay(t: SlipTime, now: int)
    ensures IsExpired(t, now) <==> t.At? && (now - t.millis) as real / HourMillis as real > MaxAgeHours as real
    ensures IsExpired(t, now) <==> t.At? && now - t.millis > 86_400_000
  {
  }

  /** A slip exactly 24 hours old, or dated in the future, is still fresh; one millisecond more expires it. */
  lemma ExpiryBoundary(t: int)
    ensures !IsExpired(At(t), t + 86_400_000)
    ensures IsExpired(At(t), t + 86_400_001)
    ensures !IsExpired(At(t), t - 1)
  {
  }

  /** An expired slip stays expired as time goes on. */
  lemma ExpiryIsMonotone(t: SlipTime, now: int, later: int)
    requires now <= later && IsExpired(t, now)
    ensures IsExpired(t, later)
  {
  }
}

=== FILE: wrappers.dfy ===
/** Optional values: a JSON field that may be absent from a collaborator's answer. */
module Wrappers {

  datatype Option<+T> = None | Some(value: T) {

    /** The value, or `default` when absent (the `x || default` idiom for a field that is missing). */
    function GetOr(default: T): T
    {
      match this
      case Some(v) => v
      case None => default
    }
  }
}
